=== FILE: README.md ===
# Timer store of TimerApp, modelled in Dafny

TimerApp is a small React Native application. Users create named countdown
timers grouped by category, then start, pause and reset them one at a time
or per category. Each completion is recorded in a history list. The logic
sits in `App.js` and has three parts, all modelled here:

- **The reducer** (`reducer`). It is a pure transition over two lists,
  `timers` and `history`. It has six action types, and any other type
  leaves the state unchanged.
- **The one-second tick.** Each interval callback walks one snapshot of
  `timers`. For every Running timer with time left it dispatches a
  decrement. When a timer reaches zero it also dispatches a history entry
  and an update to Completed.
- **The screens' dispatches.** These are the per-timer Start, Pause and
  Reset buttons, the per-category grouping with its Start All, Pause All
  and Reset All buttons, and the record built by the add-timer screen.

## Layout

| file | module | contents |
|---|---|---|
| `timer_model.dfy` | `TimerModel` | `Status`, `Timer`, `HistoryEntry`, `State`, `Action`; id and range predicates |
| `reducer.dfy` | `Reducer` | `Apply` (the reducer), `ApplyAll` (dispatching a list of actions in turn), their lemmas |
| `ticker.dfy` | `Ticker` | `TickActions` (the callback as a pure action generator), `Tick`, `Ticks`; a timer-by-timer reference and the proof that the fold meets it |
| `controls.dfy` | `Controls` | button payloads, `Grouped` and the `GroupByCategory` loop, Start All / Pause All / Reset All, `NewTimer` |
| `scenarios.dfy` | `Scenarios` | concrete runs: a timer completing, Pause All, Reset All, restarting a completed timer |

## How the source is modelled

- `status` is the closed enumeration `Paused | Running | Completed`.
- `id`, `name`, `category` and the history `time` are opaque strings.
- `duration` and `remaining` are unbounded integers.
- Every UPDATE_TIMER call site dispatches a whole spread timer (lines 72,
  77, 99, 102, 119, 122 and 125). The merge `{ ...timer, ...payload }` at
  line 25 is therefore modelled as replacing the timer with the payload.
  Every timer whose id matches is replaced.
- A tick is `ApplyAll(s, TickActions(s.timers, now))`. The actions are
  computed from one snapshot and folded through the reducer one by one,
  which is what the interval callback's `dispatch` calls do. `TimerStep`
  shows that a timer's actions overwrite its position with values taken
  from the snapshot, whatever that position currently holds.
- Start All and Pause All dispatch one UPDATE_TIMER per member of the
  rendered grouping `g`. They are not a reducer case of their own.
- Lemmas that fold several UPDATE_TIMER actions assume that ids are
  unique. With duplicate ids one update overwrites every timer that shares
  the id. `UpdateById` describes that behaviour exactly.

### Where the code behaves unexpectedly (the model follows the code)

- **A completed timer keeps showing one second.** At line 77 the update to
  Completed spreads the pre-tick `timer`, whose `remaining` is 1, and it
  is applied after the decrement to 0. The timer therefore ends up
  Completed with `remaining == 1`. "Completed implies `remaining == 0`"
  does not hold and is not stated. `TickEffect`, `Countdown` and
  `TeaCompletes` state what does hold.
- **A completed timer can be restarted.** Pressing Start on such a timer
  sets it Running with one second left. The next tick completes it again
  and appends a second history entry (`RestartedCompletionRecordsAgain`).
- **Start All and Pause All are not reducer cases.** Each is a series of
  UPDATE_TIMER dispatches over the grouping computed at render time, one
  per bucket member. The model does the same.
- **Some category names break the home screen.** The grouping is built in
  a plain `{}` object. A category that names a member inherited from
  `Object.prototype`, such as `constructor` or `toString`, makes the
  lookup at line 86 find that member. `.push` then throws a TypeError at
  line 87. `GroupByCategory` returns `Throws` exactly when such a category
  occurs (see Findings).

## Model

| member | source | states |
|---|---|---|
| Reducer.Apply | App.js:17-46 | ADD_TIMER appends its payload as the last timer and keeps earlier timers and history. UPDATE_TIMER keeps length and history, replaces exactly the timers with the payload's id and keeps the rest. RESET_TIMERS rewinds exactly that category's timers. SET_TIMERS and SET_HISTORY each replace only their own list. ADD_HISTORY appends exactly one entry and keeps timers. An unrecognised type returns the state unchanged |
| Reducer.UpdateById | App.js:21-27 | length and order are kept; every timer carrying the payload's id becomes the payload and every other timer is unchanged; with no matching id the list is unchanged; ids stay in place |
| Reducer.ResetCategory | App.js:28-36 | every timer of the category, whatever its status, gets `remaining = duration` and Paused; timers of other categories are unchanged; ids stay in place |
| Reducer.ResetTimersIdempotent | App.js:28-36 | RESET_TIMERS twice equals RESET_TIMERS once |
| Reducer.UpdateAtUniqueIndex | App.js:24-26 | with unique ids, UPDATE_TIMER rewrites exactly the one position holding the payload's id |
| Reducer.UpdateStep | App.js:21-27 | with unique ids, UPDATE_TIMER changes only that position and keeps the history and the uniqueness of ids |
| Reducer.ApplyAllKeepsIds | App.js:21-36 | a series of UPDATE_TIMER, RESET_TIMERS and history actions keeps every id at its position |
| Reducer.ApplyAllExtendsHistory | App.js:39-40 | without SET_HISTORY, dispatching actions only ever appends to the history |
| Reducer.ApplyKeepsValid | App.js:17-46 | every reducer case keeps `0 <= remaining <= duration` when its timer payloads are in range |
| Reducer.ApplyAllKeepsValid | App.js:17-46 | a series of in-range actions keeps every timer in range |
| Ticker.TimerTickActions | App.js:70-78 | a timer yields no actions unless it is Running with time left. Otherwise it yields its decrement first. A Running timer with more than one second left yields only the decrement. At its last second it also yields a history entry with its name and then an update to Completed spreading the snapshot |
| Ticker.TickActions | App.js:69-80 | a tick dispatches at most three times as many actions as the snapshot has timers, and each is an UPDATE_TIMER or an ADD_HISTORY |
| Ticker.TickActionsOnlyAdvancing | App.js:69-70 | every action of a tick comes from a snapshot timer that is Running with `remaining > 0` |
| Ticker.TickActionsCoverAdvancing | App.js:69-72 | every Running timer with time left contributes its one-second decrement |
| Ticker.TickActionsShape | App.js:69-80 | a tick never adds or replaces timers or replaces the history, and its payloads are in range when the snapshot is |
| Ticker.CompletionsRecordFinishers | App.js:73-76 | each appended entry carries the tick's time and the name of a timer at its last second; every such timer is recorded; when no timer finishes nothing is appended |
| Ticker.FinishStep | App.js:71-77 | in a list that holds the timer's id once, the three actions of a last second leave the timer Completed with the snapshot's one second, and append one entry with its name |
| Ticker.TimerStep | App.js:70-78 | in a list that holds the timer's id once, one snapshot timer's actions rewrite only its own position, from the snapshot, and append its completion; a timer that does not advance changes nothing |
| Ticker.TickPrefix | App.js:69-80 | after the actions of the first k snapshot timers, those timers hold their reference outcome, the rest are untouched, and the history has grown by their completions in order |
| Ticker.TickMatchesReference | App.js:69-80 | one tick equals the reference: each timer replaced in place by its per-timer outcome, the completions appended in snapshot order |
| Ticker.TickEffect | App.js:70-77 | a Running timer with more than one second loses exactly one; at its last second it becomes Completed still showing one second; Paused, Completed and zero-remaining timers are unchanged; ids stay in place |
| Ticker.SingleCompletion | App.js:73-76 | when exactly one timer is at its last second, the tick appends exactly one entry, with that timer's name |
| Ticker.TickKeepsValid | App.js:70-77 | a tick keeps every timer in `0 <= remaining <= duration` and keeps ids in place |
| Ticker.IdleTimerStays | App.js:70 | a Paused, Completed or zero-remaining timer is unchanged by any number of ticks |
| Ticker.Countdown | App.js:70-77 | a Running timer with r seconds shows r - n after n < r ticks; after n >= r ticks it is Completed showing one second, and it is never decremented again |
| Ticker.TicksExtendHistory | App.js:76 | ticking only appends to the history |
| Controls.PressStart | App.js:118-120 | Start on a rendered timer replaces every timer carrying its id with the rendered timer set Running; other timers, ids and history are kept |
| Controls.PressPause | App.js:121-123 | Pause on a rendered timer replaces every timer carrying its id with the rendered timer set Paused; other timers, ids and history are kept |
| Controls.PressReset | App.js:124-126 | Reset on a rendered timer replaces every timer carrying its id with the rendered timer set Paused at its full duration; other timers, ids and history are kept |
| Controls.ButtonsTouchOnlyTheirTimer | App.js:118-126 | Start, Pause and Reset on a rendered timer rewrite only its position, from the rendered timer, with the new status (and for Reset the full duration), and keep the history |
| Controls.ResetButtonMatchesResetAll | App.js:124-126 | the per-timer Reset does to its timer what RESET_TIMERS does to that category's timers and leaves every other timer alone |
| Controls.InCategory | App.js:86-87 | a category's bucket holds only timers of that category |
| Controls.Grouped | App.js:85-89 | the intended grouping: every bucket holds only timers of its key's category (its full partition property is `GroupedPartition`) |
| Controls.InCategoryCounts | App.js:85-89 | a category's bucket holds each timer of that category as often as the list does and no timer of another category |
| Controls.InCategoryAppend | App.js:85-89 | buckets keep list order: the bucket of a concatenation is the concatenation of the buckets |
| Controls.InCategoryAbsent | App.js:86 | a category that does not occur has an empty bucket |
| Controls.GroupedPartition | App.js:85-89 | the grouping has a key for every category that occurs and only for those; each bucket is non-empty; each timer is in its own category's bucket with full multiplicity and in no other |
| Controls.GroupedSnoc | App.js:86-87 | adding a timer pushes it onto its category's bucket, creating the bucket when needed |
| Controls.GroupByCategory | App.js:85-89 | the one-pass reduce throws exactly when some timer's category names an inherited `Object.prototype` member, and then reports the first such category in list order; otherwise it builds exactly `Grouped` |
| Controls.ConstructorCategoryThrows | App.js:85-89 | a single timer filed under "constructor" has one bucket in the intended grouping, yet its category is one on which the reduce throws |
| Controls.StatusActionsPerMember | App.js:98-103 | a bulk button dispatches exactly one UPDATE_TIMER per bucket member, in bucket order, each with the member's fields and the new status |
| Controls.SetCategoryStatus | App.js:98-103 | a bulk status change keeps every id at its position, whatever grouping it was rendered with |
| Controls.StartAll | App.js:98-100 | Start All keeps every id at its position, whatever grouping it was rendered with |
| Controls.PauseAll | App.js:101-103 | Pause All keeps every id at its position, whatever grouping it was rendered with |
| Controls.ResetAll | App.js:104-106 | Reset All gives every timer of the category its full duration, Paused; other timers, ids and history are kept |
| Controls.BulkPrefix | App.js:98-103 | after the updates for the bucket members among the first k timers, exactly those carry the new status |
| Controls.BulkStatusEffect | App.js:98-103 | Start All / Pause All over the current grouping give every timer of the category the new status in place and change nothing else, history included |
| Controls.StartAllRunsCategory | App.js:98-100 | after Start All every timer of the category is Running; timers of other categories are unchanged |
| Controls.PauseAllPausesCategory | App.js:101-103 | after Pause All every timer of the category is Paused; timers of other categories are unchanged |
| Controls.NewTimer | App.js:148-155 | a new timer carries the given id, name and category, is Paused, and has `remaining == duration` |
| Controls.AddNewTimer | App.js:147-156 | saving a new timer appends it last, Paused with its whole duration remaining, and keeps earlier timers and history; a fresh id keeps ids unique; a non-negative duration keeps all timers in range |
| Scenarios.TeaCompletes | App.js:69-80 | a two-second running "Tea" timer, after two ticks, is Completed showing one second, and the history holds exactly one "Tea" entry |
| Scenarios.RestartedCompletionRecordsAgain | App.js:118-120 | Start on a completed timer left at one second, then one tick: it completes again and a second history entry is appended |
| Scenarios.PauseAllKitchen | App.js:101-103 | Pause All on "Kitchen" pauses both kitchen timers and leaves the "Garden" timer alone |
| Scenarios.ResetAllRestoresCompleted | App.js:104-106 | Reset All on a Completed ten-second timer's category leaves it Paused with ten seconds |

## Left out

- Loading from and saving to AsyncStorage, and JSON stringify/parse (App.js:53-65): asynchronous I/O and a foreign serialiser. SET_TIMERS and SET_HISTORY, which the loader dispatches, are modelled.
- Creating and clearing the interval, and re-arming the effect whenever `state.timers` changes (App.js:67-68, 81-83): this is scheduling. Each modelled tick reads the current timer list as its snapshot.
- `Date.now()` ids and `new Date().toISOString()` timestamps (App.js:76, 149): both are parameters. All completions in one tick share one clock reading, whereas the source reads the clock once per completion.
- `parseInt` and its NaN result on bad input (App.js:151-152): the add-timer screen's input concern. Durations are integers.
- The progress-bar width (App.js:114): floating-point division for display only.
- The completion modal (App.js:74-75, 131-136): UI state. Its text is the same name that goes into the history entry.
- The order of `Object.keys(grouped)` (App.js:95): it affects only the display order of category blocks. JavaScript lists integer-like keys first.
- Navigation, the History screen, styles and all JSX (App.js:91-139, 160-226): presentation.
- JavaScript numbers are doubles; durations are modelled as unbounded integers. The two agree up to 2^53 seconds. From 2^54 on, `timer.remaining - 1` at App.js:71 rounds back to the same double and the source's Running timer stalls. Between 2^53 and 2^54 the subtraction rounds half to even, so the timer either stalls at once or first drops two seconds (2^53 + 2 drops to 2^53, then counts down and completes). The model takes one second off per tick throughout; neither the stall nor the two-second drop is modelled.
- Controls.GroupByCategory: the source throws a TypeError for a category that names an inherited `Object.prototype` member and the home screen fails to render. The model returns `Throws` with that category; it does not model what React does with the error.
- Controls.StartAll: its own contract states only that ids stay in place. The full effect, every timer of the category set to the new status and nothing else changed, is `BulkStatusEffect`, which requires unique ids.
- Controls.PauseAll: as for `StartAll`.
- Controls.SetCategoryStatus: as for `StartAll`.
- Action types other than the six handled ones are one case, `Unrecognised(tag)`. Nothing in the model stops a `tag` that spells a handled type; the model treats such a value as an unhandled action, which no dispatch site of the source produces.
- Ticker.TickMatchesReference: requires unique ids. With a duplicated id an update overwrites every timer sharing it, and the source gives no behaviour to promise.
- Ticker.TickEffect: requires unique ids, for the same reason.
- Ticker.IdleTimerStays: requires unique ids, for the same reason.
- Ticker.Countdown: requires unique ids, for the same reason.
- Ticker.TickPrefix: requires unique ids, for the same reason.
- Controls.BulkStatusEffect: requires unique ids, for the same reason.
- Controls.BulkPrefix: requires unique ids, for the same reason.
- Controls.StartAllRunsCategory: requires unique ids, for the same reason.
- Controls.PauseAllPausesCategory: requires unique ids, for the same reason.
- Controls.ButtonsTouchOnlyTheirTimer: requires unique ids, for the same reason.
- Controls.ResetButtonMatchesResetAll: requires unique ids, for the same reason.

## Findings

| source | as written | input that shows it | evidently intended | confidence | as-written member | corrected member |
|---|---|---|---|---|---|---|
| App.js:85-89 | `acc[timer.category] = acc[timer.category] \|\| []` on a `{}` accumulator keeps the inherited value for a category such as `constructor`, `toString` or `__proto__`, and `.push(timer)` then throws a TypeError | one timer whose category is "constructor" | every category gets its own bucket holding its timers in list order (an `Object.create(null)` or `Map` accumulator; an own-property test on `{}` is not enough, because assigning to `__proto__` still changes the prototype and creates no bucket) | high, not executed | Controls.GroupByCategory | Controls.GroupedPartition |

=== FILE: controls.dfy ===
/** What the home and add-timer screens dispatch: the per-timer Start,
    Pause and Reset buttons, the per-category grouping with its Start All,
    Pause All and Reset All buttons, and the construction of a new timer.
    Each button spreads the timer it was rendered with into its payload. */
module Controls {
  import opened TimerModel
  import opened Reducer

  // ---------------------------------------------------------------------
  // Per-timer buttons.

  /** The Start button's payload: the rendered timer, running. */
  function StartPayload(t: Timer): Timer
  {
    t.(status := Running)
  }

  /** The Pause button's payload: the rendered timer, paused. */
  function PausePayload(t: Timer): Timer
  {
    t.(status := Paused)
  }

  /** The Reset button's payload: the rendered timer, full and paused. */
  function ResetPayload(t: Timer): Timer
  {
    t.(remaining := t.duration, status := Paused)
  }

  /** Start on the rendered timer `t`: every timer carrying `t`'s id
      becomes `t` running; the others and the history stay. */
  function PressStart(s: State, t: Timer): (r: State)
    ensures r.history == s.history && SameIds(r.timers, s.timers)
    ensures forall i :: 0 <= i < |s.timers| ==>
      r.timers[i] == (if s.timers[i].id == t.id then t.(status := Running) else s.timers[i])
  {
    Apply(s, UpdateTimer(StartPayload(t)))
  }

  /** Pause on the rendered timer `t`: every timer carrying `t`'s id
      becomes `t` paused; the others and the history stay. */
  function PressPause(s: State, t: Timer): (r: State)
    ensures r.history == s.history && SameIds(r.timers, s.timers)
    ensures forall i :: 0 <= i < |s.timers| ==>
      r.timers[i] == (if s.timers[i].id == t.id then t.(status := Paused) else s.timers[i])
  {
    Apply(s, UpdateTimer(PausePayload(t)))
  }

  /** Reset on the rendered timer `t`: every timer carrying `t`'s id
      becomes `t` paused with its whole duration; the others and the
      history stay. */
  function PressReset(s: State, t: Timer): (r: State)
    ensures r.history == s.history && SameIds(r.timers, s.timers)
    ensures forall i :: 0 <= i < |s.timers| ==>
      r.timers[i] == (if s.timers[i].id == t.id then t.(remaining := t.duration, status := Paused) else s.timers[i])
  {
    Apply(s, UpdateTimer(ResetPayload(t)))
  }

  /** Pressing a button on the rendered timer `t` rewrites only the one
      position holding `t`'s id; only the status (and, for Reset, the
      remaining time) differs from what was rendered. */
  lemma ButtonsTouchOnlyTheirTimer(s: State, t: Timer, j: int)
    requires UniqueIds(s.timers) && 0 <= j < |s.timers| && s.timers[j].id == t.id
    ensures PressStart(s, t) == State(s.timers[j := t.(status := Running)], s.history)
    ensures PressPause(s, t) == State(s.timers[j := t.(status := Paused)], s.history)
    ensures PressReset(s, t) == State(s.timers[j := t.(remaining := t.duration, status := Paused)], s.history)
  {
    UpdateStep(s, j, StartPayload(t));
    UpdateStep(s, j, PausePayload(t));
    UpdateStep(s, j, ResetPayload(t));
  }

  /** The per-timer Reset button does to its timer what Reset All does to
      every timer of that category, and leaves every other timer alone. */
  lemma ResetButtonMatchesResetAll(s: State, j: int)
    requires UniqueIds(s.timers) && 0 <= j < |s.timers|
    ensures |PressReset(s, s.timers[j]).timers| == |s.timers|
    ensures PressReset(s, s.timers[j]).timers[j] == Apply(s, ResetTimers(s.timers[j].category)).timers[j]
    ensures forall i :: 0 <= i < |s.timers| && i != j ==> PressReset(s, s.timers[j]).timers[i] == s.timers[i]
    ensures PressReset(s, s.timers[j]).history == s.history
  {
    ButtonsTouchOnlyTheirTimer(s, s.timers[j], j);
  }

  // ---------------------------------------------------------------------
  // Grouping by category.

  /** The timers of category `c`, in list order (defined from the back,
      as the grouping pushes each timer onto its bucket). */
  function InCategory(ts: seq<Timer>, c: string): (r: seq<Timer>)
    ensures forall k :: 0 <= k < |r| ==> r[k].category == c
  {
    if ts == [] then []
    else
      var last := ts[|ts| - 1];
      InCategory(ts[..|ts| - 1], c) + (if last.category == c then [last] else [])
  }

  /** The categories that occur in the list. */
  function Categories(ts: seq<Timer>): set<string>
  {
    set t | t in ts :: t.category
  }

  /** The grouping as a value: one bucket per occurring category. */
  function Grouped(ts: seq<Timer>): (r: map<string, seq<Timer>>)
    ensures forall c :: c in r ==> forall k :: 0 <= k < |r[c]| ==> r[c][k].category == c
  {
    map c | c in Categories(ts) :: InCategory(ts, c)
  }

  /** Each category's bucket holds exactly that category's timers, each as
      often as it occurs in the list and no timer of another category. */
  lemma {:induction false} InCategoryCounts(ts: seq<Timer>, c: string)
    ensures forall t :: multiset(InCategory(ts, c))[t] == if t.category == c then multiset(ts)[t] else 0
  {
    if ts != [] {
      var init := ts[..|ts| - 1];
      var last := ts[|ts| - 1];
      InCategoryCounts(init, c);
      assert ts == init + [last];
      assert multiset(ts) == multiset(init) + multiset{last};
    }
  }

  /** Buckets keep list order: the bucket of a concatenation is the
      concatenation of the buckets. */
  lemma {:induction false} InCategoryAppend(a: seq<Timer>, b: seq<Timer>, c: string)
    ensures InCategory(a + b, c) == InCategory(a, c) + InCategory(b, c)
    decreases |b|
  {
    if b == [] {
      assert a + b == a;
    } else {
      var binit := b[..|b| - 1];
      var last := b[|b| - 1];
      assert (a + b)[..|a + b| - 1] == a + binit;
      assert (a + b)[|a + b| - 1] == last;
      InCategoryAppend(a, binit, c);
    }
  }

  /** A category that does not occur has an empty bucket. */
  lemma {:induction false} InCategoryAbsent(ts: seq<Timer>, c: string)
    requires c !in Categories(ts)
    ensures InCategory(ts, c) == []
  {
    if ts != [] {
      var init := ts[..|ts| - 1];
      assert ts[|ts| - 1] in ts;
      assert Categories(init) <= Categories(ts) by {
        forall x | x in Categories(init)
          ensures x in Categories(ts)
        {
          var t :| t in init && t.category == x;
          assert t in ts;
        }
      }
      InCategoryAbsent(init, c);
    }
  }

  /** The grouping partitions the list: every category that occurs has a
      non-empty bucket, every timer sits in the bucket of its own category
      with its full multiplicity and in no other bucket. */
  lemma GroupedPartition(ts: seq<Timer>)
    ensures Grouped(ts).Keys == Categories(ts)
    ensures forall i :: 0 <= i < |ts| ==> ts[i].category in Grouped(ts) && ts[i] in Grouped(ts)[ts[i].category]
    ensures forall c, t :: c in Grouped(ts) ==>
      multiset(Grouped(ts)[c])[t] == if t.category == c then multiset(ts)[t] else 0
    ensures forall c :: c in Grouped(ts) ==> |Grouped(ts)[c]| > 0
  {
    forall c | c in Grouped(ts)
      ensures forall t :: multiset(Grouped(ts)[c])[t] == if t.category == c then multiset(ts)[t] else 0
      ensures |Grouped(ts)[c]| > 0
    {
      InCategoryCounts(ts, c);
      var t :| t in ts && t.category == c;
      assert multiset(Grouped(ts)[c])[t] > 0;
    }
    forall i | 0 <= i < |ts|
      ensures ts[i].category in Grouped(ts) && ts[i] in Grouped(ts)[ts[i].category]
    {
      var c := ts[i].category;
      assert ts[i] in ts;
      InCategoryCounts(ts, c);
      assert multiset(InCategory(ts, c))[ts[i]] > 0;
    }
  }

  /** Adding one timer to the grouping pushes it onto its category's
      bucket, creating the bucket if needed. */
  lemma GroupedSnoc(ts: seq<Timer>, t: Timer)
    ensures Grouped(ts + [t])
      == Grouped(ts)[t.category := (if t.category in Grouped(ts) then Grouped(ts)[t.category] else []) + [t]]
  {
    var u := ts + [t];
    assert u[..|u| - 1] == ts && u[|u| - 1] == t;
    assert Categories(u) == Categories(ts) + {t.category};
    var lhs := Grouped(u);
    var rhs := Grouped(ts)[t.category := (if t.category in Grouped(ts) then Grouped(ts)[t.category] else []) + [t]];
    assert lhs.Keys == rhs.Keys;
    forall c | c in lhs
      ensures lhs[c] == rhs[c]
    {
      if c == t.category && c !in Grouped(ts) {
        InCategoryAbsent(ts, c);
      }
    }
  }

  /** One step of the reduce over `ts`: the grouping of the first `i + 1`
      timers pushes timer `i` onto the grouping of the first `i`. */
  lemma GroupedPush(ts: seq<Timer>, i: int)
    requires 0 <= i < |ts|
    ensures
      var g := Grouped(ts[..i]);
      var c := ts[i].category;
      Grouped(ts[..i + 1]) == g[c := (if c in g then g[c] else []) + [ts[i]]]
  {
    assert ts[..i + 1] == ts[..i] + [ts[i]];
    GroupedSnoc(ts[..i], ts[i]);
  }

  /** The members every plain JavaScript object inherits from
      `Object.prototype`. Looking one of them up on the `{}` accumulator
      yields a truthy inherited value instead of `undefined`. */
  const InheritedNames: set<string> := {
    "constructor", "hasOwnProperty", "isPrototypeOf", "propertyIsEnumerable",
    "toLocaleString", "toString", "valueOf", "__proto__",
    "__defineGetter__", "__defineSetter__", "__lookupGetter__", "__lookupSetter__" }

  /** What computing the grouping does: it either yields the buckets, or
      throws a TypeError at the first timer whose category names an
      inherited member (`acc[c] || []` keeps the inherited value, which
      has no `push`). */
  datatype Rendering = Rendered(groups: map<string, seq<Timer>>) | Throws(category: string)

  /** The grouping as the home screen computes it: one pass over the
      list, pushing each timer onto the bucket of its category. */
  method GroupByCategory(ts: seq<Timer>) returns (r: Rendering)
    ensures r.Throws? <==> exists i :: 0 <= i < |ts| && ts[i].category in InheritedNames
    ensures r.Throws? ==> r.category in InheritedNames
    ensures r.Throws? ==> exists i :: (0 <= i < |ts| && ts[i].category == r.category
      && forall k :: 0 <= k < i ==> ts[k].category !in InheritedNames)
    ensures r.Rendered? ==> r.groups == Grouped(ts)
  {
    var g := map[];
    var i := 0;
    while i < |ts|
      invariant 0 <= i <= |ts|
      invariant forall k :: 0 <= k < i ==> ts[k].category !in InheritedNames
      invariant g == Grouped(ts[..i])
    {
      var t := ts[i];
      if t.category in InheritedNames {
        return Throws(t.category);
      }
      GroupedPush(ts, i);
      g := g[t.category := (if t.category in g then g[t.category] else []) + [t]];
      i := i + 1;
    }
    assert ts[..i] == ts;
    return Rendered(g);
  }

  /** A single timer filed under "constructor": the intended grouping has
      one bucket holding it, but the reduce as written throws. */
  lemma ConstructorCategoryThrows(t: Timer)
    requires t.category == "constructor"
    ensures t.category in InheritedNames
    ensures Grouped([t]) == map["constructor" := [t]]
  {
    assert Categories([t]) == {"constructor"} by {
      assert [t][0] == t;
    }
    assert InCategory([t], "constructor") == [t] by {
      assert [t][..0] == [];
    }
  }

  // ---------------------------------------------------------------------
  // Per-category buttons.

  /** One UPDATE_TIMER per timer of the bucket, each spreading that
      timer with the new status, in bucket order. */
  function StatusActions(group: seq<Timer>, st: Status): seq<Action>
  {
    if group == [] then []
    else StatusActions(group[..|group| - 1], st) + [UpdateTimer(group[|group| - 1].(status := st))]
  }

  /** A bulk button dispatches exactly one UPDATE_TIMER per bucket member,
      in bucket order, each spreading that member with the new status. */
  lemma {:induction false} StatusActionsPerMember(group: seq<Timer>, st: Status)
    ensures |StatusActions(group, st)| == |group|
    ensures forall k :: 0 <= k < |group| ==> StatusActions(group, st)[k] == UpdateTimer(group[k].(status := st))
  {
    if group != [] {
      var init := group[..|group| - 1];
      StatusActionsPerMember(init, st);
      forall k | 0 <= k < |init|
        ensures StatusActions(group, st)[k] == UpdateTimer(group[k].(status := st))
      {
        assert init[k] == group[k];
      }
    }
  }

  /** Start All / Pause All for category `c` over the grouping `g` the
      screen was rendered with. */
  function SetCategoryStatus(s: State, g: map<string, seq<Timer>>, c: string, st: Status): (r: State)
    ensures SameIds(r.timers, s.timers)
  {
    var group := if c in g then g[c] else [];
    var actions := StatusActions(group, st);
    StatusActionsPerMember(group, st);
    ApplyAllKeepsIds(s, actions);
    ApplyAll(s, actions)
  }

  /** Start All: whatever bucket the screen rendered, ids stay in place. */
  function StartAll(s: State, g: map<string, seq<Timer>>, c: string): (r: State)
    ensures SameIds(r.timers, s.timers)
  {
    SetCategoryStatus(s, g, c, Running)
  }

  /** Pause All: whatever bucket the screen rendered, ids stay in place. */
  function PauseAll(s: State, g: map<string, seq<Timer>>, c: string): (r: State)
    ensures SameIds(r.timers, s.timers)
  {
    SetCategoryStatus(s, g, c, Paused)
  }

  /** Reset All is a single RESET_TIMERS for the category: its timers get
      their whole duration back, paused; nothing else changes. */
  function ResetAll(s: State, c: string): (r: State)
    ensures r.history == s.history && SameIds(r.timers, s.timers)
    ensures forall i :: 0 <= i < |s.timers| ==>
      r.timers[i] == (if s.timers[i].category == c
                      then s.timers[i].(remaining := s.timers[i].duration, status := Paused)
                      else s.timers[i])
  {
    Apply(s, ResetTimers(c))
  }

  /** A timer given status `st` when it belongs to category `c`. */
  function WithStatusIn(t: Timer, c: string, st: Status): Timer
  {
    if t.category == c then t.(status := st) else t
  }

  /** The list after a bulk status change has reached position `k`. */
  function BulkHalfway(ts: seq<Timer>, c: string, st: Status, k: int): seq<Timer>
    requires 0 <= k <= |ts|
  {
    seq(k, i requires 0 <= i < k => WithStatusIn(ts[i], c, st)) + ts[k..]
  }

  lemma BulkHalfwayIds(ts: seq<Timer>, c: string, st: Status, k: int)
    requires 0 <= k < |ts|
    ensures SameIds(BulkHalfway(ts, c, st, k), ts)
    ensures BulkHalfway(ts, c, st, k)[k] == ts[k]
    ensures BulkHalfway(ts, c, st, k)[k := WithStatusIn(ts[k], c, st)] == BulkHalfway(ts, c, st, k + 1)
  {
    var cur := BulkHalfway(ts, c, st, k);
    var nxt := BulkHalfway(ts, c, st, k + 1);
    forall i | 0 <= i < |cur|
      ensures cur[i].id == ts[i].id
      ensures i != k ==> cur[i] == nxt[i]
    {
      if i >= k {
        assert cur[i] == ts[k..][i - k];
      }
      if i > k {
        assert nxt[i] == ts[k + 1..][i - k - 1];
      }
    }
    assert cur[k] == ts[k..][0];
  }

  lemma BulkStep(s: State, c: string, st: Status, k: int)
    requires UniqueIds(s.timers) && 0 <= k < |s.timers|
    ensures
      var ts := s.timers;
      var extra := if ts[k].category == c then [UpdateTimer(ts[k].(status := st))] else [];
      ApplyAll(State(BulkHalfway(ts, c, st, k), s.history), extra) == State(BulkHalfway(ts, c, st, k + 1), s.history)
  {
    var ts := s.timers;
    var cur := State(BulkHalfway(ts, c, st, k), s.history);
    BulkHalfwayIds(ts, c, st, k);
    if ts[k].category == c {
      SameIdsKeepUnique(cur.timers, ts);
      UpdateStep(cur, k, ts[k].(status := st));
      ApplyAllCons(cur, UpdateTimer(ts[k].(status := st)), []);
    } else {
      assert cur.timers[k := ts[k]] == cur.timers;
    }
  }

  lemma StatusActionsSnoc(ts: seq<Timer>, c: string, st: Status, k: int)
    requires 0 <= k < |ts|
    ensures StatusActions(InCategory(ts[..k + 1], c), st)
      == StatusActions(InCategory(ts[..k], c), st)
         + (if ts[k].category == c then [UpdateTimer(ts[k].(status := st))] else [])
  {
    var u := ts[..k + 1];
    assert u[..|u| - 1] == ts[..k] && u[|u| - 1] == ts[k];
    var pre := InCategory(ts[..k], c);
    if ts[k].category == c {
      var g := pre + [ts[k]];
      assert g[..|g| - 1] == pre;
    } else {
      assert pre + [] == pre;
    }
  }

  /** Before any update, the halfway list is the list itself. */
  lemma BulkStart(s: State, c: string, st: Status)
    ensures ApplyAll(s, StatusActions(InCategory(s.timers[..0], c), st))
      == State(BulkHalfway(s.timers, c, st, 0), s.history)
  {
    var ts := s.timers;
    assert ts[..0] == [] && ts[0..] == ts;
    assert BulkHalfway(ts, c, st, 0) == ts;
  }

  /** The update for timer `k - 1`, if it is a bucket member, moves the
      halfway state one timer on. */
  lemma BulkAdvance(s: State, c: string, st: Status, k: int)
    requires UniqueIds(s.timers) && 0 < k <= |s.timers|
    requires ApplyAll(s, StatusActions(InCategory(s.timers[..k - 1], c), st))
      == State(BulkHalfway(s.timers, c, st, k - 1), s.history)
    ensures ApplyAll(s, StatusActions(InCategory(s.timers[..k], c), st))
      == State(BulkHalfway(s.timers, c, st, k), s.history)
  {
    var ts := s.timers;
    var pre := StatusActions(InCategory(ts[..k - 1], c), st);
    var extra := if ts[k - 1].category == c then [UpdateTimer(ts[k - 1].(status := st))] else [];
    var acts := StatusActions(InCategory(ts[..k], c), st);
    StatusActionsSnoc(ts, c, st, k - 1);
    assert acts == pre + extra;
    ApplyAllAppend(s, pre, extra);
    BulkStep(s, c, st, k - 1);
  }

  /** After the updates for the bucket members among the first `k`
      timers, those members carry the new status and nothing else moved. */
  lemma {:induction false} BulkPrefix(s: State, c: string, st: Status, k: int)
    requires UniqueIds(s.timers) && 0 <= k <= |s.timers|
    ensures ApplyAll(s, StatusActions(InCategory(s.timers[..k], c), st))
      == State(BulkHalfway(s.timers, c, st, k), s.history)
    decreases k
  {
    if k == 0 {
      BulkStart(s, c, st);
    } else {
      BulkPrefix(s, c, st, k - 1);
      BulkAdvance(s, c, st, k);
    }
  }

  /** Start All / Pause All over the current grouping give every timer of
      the category the new status, in place, and change nothing else. */
  lemma BulkStatusEffect(s: State, c: string, st: Status)
    requires UniqueIds(s.timers)
    ensures |SetCategoryStatus(s, Grouped(s.timers), c, st).timers| == |s.timers|
    ensures forall i :: 0 <= i < |s.timers| ==>
      SetCategoryStatus(s, Grouped(s.timers), c, st).timers[i]
        == (if s.timers[i].category == c then s.timers[i].(status := st) else s.timers[i])
    ensures SetCategoryStatus(s, Grouped(s.timers), c, st).history == s.history
  {
    var ts := s.timers;
    BulkPrefix(s, c, st, |ts|);
    assert ts[..|ts|] == ts;
    if c !in Grouped(ts) {
      InCategoryAbsent(ts, c);
    }
    var r := SetCategoryStatus(s, Grouped(ts), c, st);
    assert r.timers == BulkHalfway(ts, c, st, |ts|);
    assert ts[|ts|..] == [];
  }

  /** The Start All scenario: every timer of the category runs. */
  lemma StartAllRunsCategory(s: State, c: string)
    requires UniqueIds(s.timers)
    ensures |StartAll(s, Grouped(s.timers), c).timers| == |s.timers|
    ensures forall i :: 0 <= i < |s.timers| && s.timers[i].category == c ==>
      StartAll(s, Grouped(s.timers), c).timers[i].status == Running
    ensures forall i :: 0 <= i < |s.timers| && s.timers[i].category != c ==>
      StartAll(s, Grouped(s.timers), c).timers[i] == s.timers[i]
  {
    BulkStatusEffect(s, c, Running);
  }

  /** The Pause All scenario: every timer of the category is paused. */
  lemma PauseAllPausesCategory(s: State, c: string)
    requires UniqueIds(s.timers)
    ensures |PauseAll(s, Grouped(s.timers), c).timers| == |s.timers|
    ensures forall i :: 0 <= i < |s.timers| && s.timers[i].category == c ==>
      PauseAll(s, Grouped(s.timers), c).timers[i].status == Paused
    ensures forall i :: 0 <= i < |s.timers| && s.timers[i].category != c ==>
      PauseAll(s, Grouped(s.timers), c).timers[i] == s.timers[i]
  {
    BulkStatusEffect(s, c, Paused);
  }

  // ---------------------------------------------------------------------
  // Creating a timer.

  /** The record the add-timer screen builds: paused, with the whole
      duration remaining. The id comes from the creation clock and the
      duration from the already-parsed input field. */
  function NewTimer(id: string, name: string, duration: int, category: string): (t: Timer)
    ensures t.id == id && t.name == name && t.category == category
    ensures t.status == Paused
    ensures t.duration == duration && t.remaining == t.duration
  {
    Timer(id, name, duration, duration, category, Paused)
  }

  /** Saving a new timer appends it as the last timer and changes nothing
      else; a fresh id keeps ids unique, and a non-negative duration keeps
      every timer in range. */
  lemma AddNewTimer(s: State, id: string, name: string, duration: int, category: string)
    ensures
      var r := Apply(s, AddTimer(NewTimer(id, name, duration, category)));
      && |r.timers| == |s.timers| + 1
      && r.timers[..|s.timers|] == s.timers
      && r.timers[|s.timers|].status == Paused
      && r.timers[|s.timers|].remaining == duration
      && r.history == s.history
    ensures UniqueIds(s.timers) && (forall i :: 0 <= i < |s.timers| ==> s.timers[i].id != id) ==>
      UniqueIds(Apply(s, AddTimer(NewTimer(id, name, duration, category))).timers)
    ensures ValidTimers(s.timers) && duration >= 0 ==>
      ValidTimers(Apply(s, AddTimer(NewTimer(id, name, duration, category))).timers)
  {
    var t := NewTimer(id, name, duration, category);
    var r := Apply(s, AddTimer(t));
    if ValidTimers(s.timers) && duration >= 0 {
      ApplyKeepsValid(s, AddTimer(t));
    }
    if UniqueIds(s.timers) && (forall i :: 0 <= i < |s.timers| ==> s.timers[i].id != id) {
      forall i, j | 0 <= i < j < |r.timers|
        ensures r.timers[i].id != r.timers[j].id
      {
        assert r.timers[i] == s.timers[i];
        if j < |s.timers| {
          assert r.timers[j] == s.timers[j];
        }
      }
    }
  }
}

=== FILE: reducer.dfy ===
/** The reducer of the timer store: a pure `(state, action) -> state`
    transition, and its left fold over a sequence of dispatched actions. */
module Reducer {
  import opened TimerModel

  /** The timer a reset leaves behind: full countdown, paused. */
  function Rewound(t: Timer): (r: Timer)
    ensures r.id == t.id && r.name == t.name && r.category == t.category
    ensures r.duration == t.duration && r.remaining == t.duration
    ensures r.status == Paused
  {
    t.(remaining := t.duration, status := Paused)
  }

  /** UPDATE_TIMER on the timer list: every timer carrying the payload's id
      is replaced by the payload, every other timer is kept, in place. */
  function UpdateById(ts: seq<Timer>, p: Timer): (r: seq<Timer>)
    ensures |r| == |ts|
    ensures forall i :: 0 <= i < |ts| ==> r[i] == (if ts[i].id == p.id then p else ts[i])
    ensures (forall i :: 0 <= i < |ts| ==> ts[i].id != p.id) ==> r == ts
    ensures SameIds(r, ts)
  {
    if ts == [] then []
    else [if ts[0].id == p.id then p else ts[0]] + UpdateById(ts[1..], p)
  }

  /** RESET_TIMERS on the timer list: timers of category `c` are rewound,
      whatever their status; the others are kept, in place. */
  function ResetCategory(ts: seq<Timer>, c: string): (r: seq<Timer>)
    ensures |r| == |ts|
    ensures forall i :: 0 <= i < |ts| ==>
      r[i] == (if ts[i].category == c then Rewound(ts[i]) else ts[i])
    ensures SameIds(r, ts)
  {
    if ts == [] then []
    else [if ts[0].category == c then Rewound(ts[0]) else ts[0]] + ResetCategory(ts[1..], c)
  }

  /** The reducer. Each case touches only its own sequence; an
      unrecognised action type returns the state unchanged. */
  function Apply(s: State, a: Action): (r: State)
    ensures a.AddTimer? ==>
      && r.history == s.history
      && |r.timers| == |s.timers| + 1
      && r.timers[..|s.timers|] == s.timers
      && r.timers[|s.timers|] == a.timer
    ensures a.UpdateTimer? ==>
      && r.history == s.history
      && |r.timers| == |s.timers|
      && (forall i :: 0 <= i < |s.timers| && s.timers[i].id != a.timer.id ==> r.timers[i] == s.timers[i])
      && (forall i :: 0 <= i < |s.timers| && s.timers[i].id == a.timer.id ==> r.timers[i] == a.timer)
    ensures a.ResetTimers? ==>
      && r.history == s.history
      && |r.timers| == |s.timers|
      && (forall i :: 0 <= i < |s.timers| && s.timers[i].category != a.category ==> r.timers[i] == s.timers[i])
      && (forall i :: 0 <= i < |s.timers| && s.timers[i].category == a.category ==>
            r.timers[i] == Rewound(s.timers[i]))
    ensures a.SetTimers? ==> r.timers == a.timers && r.history == s.history
    ensures a.AddHistory? ==>
      && r.timers == s.timers
      && |r.history| == |s.history| + 1
      && r.history[..|s.history|] == s.history
      && r.history[|s.history|] == a.entry
    ensures a.SetHistory? ==> r.history == a.entries && r.timers == s.timers
    ensures a.Unrecognised? ==> r == s
  {
    match a
    case AddTimer(t) => s.(timers := s.timers + [t])
    case UpdateTimer(p) => s.(timers := UpdateById(s.timers, p))
    case ResetTimers(c) => s.(timers := ResetCategory(s.timers, c))
    case SetTimers(ts) => s.(timers := ts)
    case AddHistory(e) => s.(history := s.history + [e])
    case SetHistory(hs) => s.(history := hs)
    case Unrecognised(_) => s
  }

  /** An action that neither adds timers nor replaces the timer list. */
  predicate KeepsRoster(a: Action)
  {
    !a.AddTimer? && !a.SetTimers?
  }

  /** Dispatching `actions` one after another, each against the state the
      previous one produced. */
  function ApplyAll(s: State, actions: seq<Action>): State
    decreases |actions|
  {
    if actions == [] then s
    else ApplyAll(Apply(s, actions[0]), actions[1..])
  }

  /** Actions that neither add timers nor replace the list keep every id
      at its position (UPDATE_TIMER writes its payload only over its own id). */
  lemma {:induction false} ApplyAllKeepsIds(s: State, actions: seq<Action>)
    requires forall k :: 0 <= k < |actions| ==> KeepsRoster(actions[k])
    ensures SameIds(ApplyAll(s, actions).timers, s.timers)
    decreases |actions|
  {
    if actions != [] {
      var s1 := Apply(s, actions[0]);
      assert SameIds(s1.timers, s.timers);
      ApplyAllKeepsIds(s1, actions[1..]);
    }
  }

  /** Without SET_HISTORY the history is only ever appended to. */
  lemma {:induction false} ApplyAllExtendsHistory(s: State, actions: seq<Action>)
    requires forall k :: 0 <= k < |actions| ==> !actions[k].SetHistory?
    ensures |s.history| <= |ApplyAll(s, actions).history|
    ensures ApplyAll(s, actions).history[..|s.history|] == s.history
    decreases |actions|
  {
    if actions != [] {
      var s1 := Apply(s, actions[0]);
      ApplyAllExtendsHistory(s1, actions[1..]);
      var h := ApplyAll(s, actions).history;
      assert s1.history[..|s.history|] == s.history;
      assert h[..|s1.history|][..|s.history|] == h[..|s.history|];
    }
  }

  lemma ApplyAllCons(s: State, a: Action, rest: seq<Action>)
    ensures ApplyAll(s, [a] + rest) == ApplyAll(Apply(s, a), rest)
  {
    assert ([a] + rest)[1..] == rest;
  }

  lemma {:induction false} ApplyAllAppend(s: State, a: seq<Action>, b: seq<Action>)
    ensures ApplyAll(s, a + b) == ApplyAll(ApplyAll(s, a), b)
    decreases |a|
  {
    if a == [] {
      assert a + b == b;
    } else {
      assert (a + b)[0] == a[0];
      assert (a + b)[1..] == a[1..] + b;
      ApplyAllAppend(Apply(s, a[0]), a[1..], b);
    }
  }

  /** With unique ids, UPDATE_TIMER rewrites exactly the one position whose
      id the payload carries. */
  lemma UpdateAtUniqueIndex(ts: seq<Timer>, j: int, p: Timer)
    requires UniqueIds(ts) && 0 <= j < |ts| && ts[j].id == p.id
    ensures UpdateById(ts, p) == ts[j := p]
  {
    var r := UpdateById(ts, p);
    forall i | 0 <= i < |ts|
      ensures r[i] == ts[j := p][i]
    {
      if i < j {
        assert ts[i].id != ts[j].id;
      } else if j < i {
        assert ts[j].id != ts[i].id;
      }
    }
  }

  /** UPDATE_TIMER dispatched against a list that holds the payload's id
      once: that position becomes the payload, ids stay unique. */
  lemma UpdateStep(s: State, j: int, p: Timer)
    requires UniqueIds(s.timers) && 0 <= j < |s.timers| && s.timers[j].id == p.id
    ensures Apply(s, UpdateTimer(p)) == State(s.timers[j := p], s.history)
    ensures UniqueIds(s.timers[j := p])
  {
    UpdateAtUniqueIndex(s.timers, j, p);
    SameIdsKeepUnique(s.timers[j := p], s.timers);
  }

  /** RESET_TIMERS applied twice equals applying it once. */
  lemma ResetTimersIdempotent(s: State, c: string)
    ensures Apply(Apply(s, ResetTimers(c)), ResetTimers(c)) == Apply(s, ResetTimers(c))
  {
    var once := Apply(s, ResetTimers(c));
    var twice := Apply(once, ResetTimers(c));
    assert twice.timers == once.timers by {
      forall i | 0 <= i < |once.timers|
        ensures twice.timers[i] == once.timers[i]
      {
        if s.timers[i].category == c {
          assert once.timers[i] == Rewound(s.timers[i]);
          assert Rewound(once.timers[i]) == once.timers[i];
        }
      }
    }
  }

  /** An action whose timer payloads are in range. */
  predicate ValidAction(a: Action)
  {
    match a
    case AddTimer(t) => ValidTimer(t)
    case UpdateTimer(t) => ValidTimer(t)
    case SetTimers(ts) => ValidTimers(ts)
    case _ => true
  }

  /** Every reducer case keeps `0 <= remaining <= duration` for all timers,
      provided the payloads it is given are in range. */
  lemma ApplyKeepsValid(s: State, a: Action)
    requires ValidTimers(s.timers) && ValidAction(a)
    ensures ValidTimers(Apply(s, a).timers)
  {
    var r := Apply(s, a);
    match a
    case AddTimer(t) =>
      forall i | 0 <= i < |r.timers|
        ensures ValidTimer(r.timers[i])
      {
        if i < |s.timers| {
          assert r.timers[i] == r.timers[..|s.timers|][i];
        }
      }
    case _ =>
  }

  /** A run of in-range actions keeps every timer in range. */
  lemma {:induction false} ApplyAllKeepsValid(s: State, actions: seq<Action>)
    requires ValidTimers(s.timers)
    requires forall k :: 0 <= k < |actions| ==> ValidAction(actions[k])
    ensures ValidTimers(ApplyAll(s, actions).timers)
    decreases |actions|
  {
    if actions != [] {
      ApplyKeepsValid(s, actions[0]);
      ApplyAllKeepsValid(Apply(s, actions[0]), actions[1..]);
    }
  }
}

=== FILE: scenarios.dfy ===
/** Concrete runs of the timer store, worked through the general lemmas. */
module Scenarios {
  import opened TimerModel
  import opened Reducer
  import opened Ticker
  import opened Controls

  /** A two-second "Tea" timer, started, ticked twice: it ends Completed
      but still showing one second (the completing update spreads the
      pre-tick timer), and the history gains exactly one "Tea" entry. */
  lemma TeaCompletes()
    ensures
      var tea := Timer("1", "Tea", 2, 2, "Kitchen", Running);
      var r := Ticks(State([tea], []), ["t1", "t2"]);
      && |r.timers| == 1
      && r.timers[0] == Timer("1", "Tea", 2, 1, "Kitchen", Completed)
      && r.history == [HistoryEntry("Tea", "t2")]
  {
    var tea := Timer("1", "Tea", 2, 2, "Kitchen", Running);
    var s0 := State([tea], []);
    Countdown(s0, ["t1", "t2"], 0);
    TickMatchesReference(s0, "t1");
    CompletionsRecordFinishers([tea], "t1");
    var s1 := Tick(s0, "t1");
    assert s1.timers == [Ticked(tea)];
    assert s1.history == [];
    TickMatchesReference(s1, "t2");
    SingleCompletion(s1.timers, "t2", 0);
    var s2 := Tick(s1, "t2");
    assert s2.history == [HistoryEntry("Tea", "t2")];
    assert Ticks(s0, ["t1", "t2"]) == Ticks(s1, ["t2"]);
    assert ["t1", "t2"][1..] == ["t2"] && ["t2"][1..] == [];
  }

  /** Start on a Completed timer left at one second runs it again, and the
      next tick completes it a second time with a second history entry. */
  lemma RestartedCompletionRecordsAgain()
    ensures
      var done := Timer("1", "Tea", 2, 1, "Kitchen", Completed);
      var s := State([done], [HistoryEntry("Tea", "t2")]);
      var r := Tick(PressStart(s, done), "t3");
      && r.timers == [done]
      && r.history == [HistoryEntry("Tea", "t2"), HistoryEntry("Tea", "t3")]
  {
    var done := Timer("1", "Tea", 2, 1, "Kitchen", Completed);
    var s := State([done], [HistoryEntry("Tea", "t2")]);
    var again := done.(status := Running);
    var running := State([again], s.history);
    UpdateStep(s, 0, again);
    assert PressStart(s, done) == running;
    TickMatchesReference(running, "t3");
    SingleCompletion([again], "t3", 0);
    assert TickedAll([again]) == [done] by {
      assert Ticked(again) == done;
    }
  }

  /** Pause All on "Kitchen" with one running and one paused kitchen
      timer pauses both and leaves the "Garden" timer alone. */
  lemma PauseAllKitchen()
    ensures
      var a := Timer("1", "Tea", 60, 30, "Kitchen", Running);
      var b := Timer("2", "Eggs", 300, 300, "Kitchen", Paused);
      var g := Timer("3", "Water", 120, 50, "Garden", Running);
      var s := State([a, b, g], []);
      var r := PauseAll(s, Grouped(s.timers), "Kitchen");
      r.timers == [a.(status := Paused), b, g] && r.history == []
  {
    var a := Timer("1", "Tea", 60, 30, "Kitchen", Running);
    var b := Timer("2", "Eggs", 300, 300, "Kitchen", Paused);
    var g := Timer("3", "Water", 120, 50, "Garden", Running);
    var s := State([a, b, g], []);
    assert UniqueIds(s.timers) by {
      assert s.timers[0].id == "1" && s.timers[1].id == "2" && s.timers[2].id == "3";
    }
    BulkStatusEffect(s, "Kitchen", Paused);
    var r := SetCategoryStatus(s, Grouped(s.timers), "Kitchen", Paused);
    assert r.timers[0] == a.(status := Paused) && r.timers[1] == b && r.timers[2] == g;
  }

  /** Reset All on the category of a Completed ten-second timer gives it
      back its ten seconds, paused. */
  lemma ResetAllRestoresCompleted()
    ensures
      var t := Timer("7", "Bread", 10, 1, "Kitchen", Completed);
      ResetAll(State([t], []), "Kitchen").timers == [Timer("7", "Bread", 10, 10, "Kitchen", Paused)]
  {
    var t := Timer("7", "Bread", 10, 1, "Kitchen", Completed);
    var r := ResetAll(State([t], []), "Kitchen");
    assert r.timers[0] == Rewound(t);
  }
}

=== FILE: ticker.dfy ===
/** The one-second tick. Each tick reads one snapshot of the timer list,
    turns it into the actions the interval callback dispatches, and those
    actions are folded through the reducer one after another. */
module Ticker {
  import opened TimerModel
  import opened Reducer

  /** The tick touches a timer only while it runs with time left. */
  predicate Advances(t: Timer)
  {
    t.status == Running && t.remaining > 0
  }

  /** The tick that takes a timer from one second left to zero. */
  predicate Finishes(t: Timer)
  {
    t.status == Running && t.remaining == 1
  }

  /** The actions one snapshot timer contributes to a tick: a decrement,
      and on reaching zero a history entry followed by an update to
      Completed that spreads the snapshot (so it still says one second). */
  function TimerTickActions(t: Timer, now: string): (r: seq<Action>)
    ensures r == [] <==> !Advances(t)
    ensures Advances(t) ==> r[0] == UpdateTimer(t.(remaining := t.remaining - 1))
    ensures |r| == 1 <==> Advances(t) && !Finishes(t)
    ensures |r| == 3 <==> Finishes(t)
    ensures Finishes(t) ==>
      r[1] == AddHistory(HistoryEntry(t.name, now)) && r[2] == UpdateTimer(t.(status := Completed))
    ensures forall k :: 0 <= k < |r| ==> KeepsRoster(r[k]) && !r[k].SetHistory?
    ensures ValidTimer(t) ==> forall k :: 0 <= k < |r| ==> ValidAction(r[k])
  {
    if !Advances(t) then []
    else
      var left := t.remaining - 1;
      [UpdateTimer(t.(remaining := left))]
      + (if left == 0 then [AddHistory(HistoryEntry(t.name, now)), UpdateTimer(t.(status := Completed))] else [])
  }

  /** The actions one interval callback dispatches for snapshot `ts`, in
      the snapshot's order (defined from the last timer backwards). */
  function TickActions(ts: seq<Timer>, now: string): (r: seq<Action>)
    ensures |r| <= 3 * |ts|
    ensures forall k :: 0 <= k < |r| ==> r[k].UpdateTimer? || r[k].AddHistory?
  {
    if ts == [] then []
    else TickActions(ts[..|ts| - 1], now) + TimerTickActions(ts[|ts| - 1], now)
  }

  /** A tick's actions never add timers, never replace either list, and
      carry in-range payloads when the snapshot is in range. */
  lemma {:induction false} TickActionsShape(ts: seq<Timer>, now: string)
    ensures forall a :: a in TickActions(ts, now) ==> KeepsRoster(a) && !a.SetHistory?
    ensures ValidTimers(ts) ==> forall a :: a in TickActions(ts, now) ==> ValidAction(a)
  {
    if ts != [] {
      var init := ts[..|ts| - 1];
      TickActionsShape(init, now);
      assert ValidTimers(ts) ==> ValidTimers(init);
    }
  }

  /** Every running timer with time left contributes its decrement. */
  lemma {:induction false} TickActionsCoverAdvancing(ts: seq<Timer>, now: string)
    ensures forall i :: 0 <= i < |ts| && Advances(ts[i]) ==>
      UpdateTimer(ts[i].(remaining := ts[i].remaining - 1)) in TickActions(ts, now)
  {
    if ts != [] {
      var init := ts[..|ts| - 1];
      TickActionsCoverAdvancing(init, now);
      forall i | 0 <= i < |ts| && Advances(ts[i])
        ensures UpdateTimer(ts[i].(remaining := ts[i].remaining - 1)) in TickActions(ts, now)
      {
        if i < |init| {
          assert init[i] == ts[i];
        }
      }
    }
  }

  /** An action of a tick that was contributed by an advancing timer of
      the snapshot. */
  ghost predicate FromAdvancing(a: Action, ts: seq<Timer>, now: string)
  {
    exists i :: 0 <= i < |ts| && Advances(ts[i]) && a in TimerTickActions(ts[i], now)
  }

  /** A tick emits actions only for timers that run with time left. */
  lemma {:induction false} TickActionsOnlyAdvancing(ts: seq<Timer>, now: string)
    ensures forall a :: a in TickActions(ts, now) ==> FromAdvancing(a, ts, now)
  {
    if ts != [] {
      var init := ts[..|ts| - 1];
      var last := ts[|ts| - 1];
      TickActionsOnlyAdvancing(init, now);
      assert TickActions(ts, now) == TickActions(init, now) + TimerTickActions(last, now);
      forall a | a in TickActions(ts, now)
        ensures FromAdvancing(a, ts, now)
      {
        if a in TickActions(init, now) {
          assert FromAdvancing(a, init, now);
          var i :| 0 <= i < |init| && Advances(init[i]) && a in TimerTickActions(init[i], now);
          assert init[i] == ts[i];
        } else {
          assert a in TimerTickActions(last, now);
          assert Advances(ts[|ts| - 1]);
        }
      }
    }
  }

  /** One tick: the snapshot is the current timer list. */
  function Tick(s: State, now: string): State
  {
    ApplyAll(s, TickActions(s.timers, now))
  }

  /** Successive ticks, one per clock reading in `nows`. */
  function Ticks(s: State, nows: seq<string>): State
    decreases |nows|
  {
    if nows == [] then s else Ticks(Tick(s, nows[0]), nows[1..])
  }

  // ---------------------------------------------------------------------
  // Reference definition of a tick, timer by timer.

  /** What one tick should leave of a timer, read off the source: one
      second less while more than one second is left; at the last second
      the status becomes Completed and `remaining` stays at the snapshot's
      one second; any timer that does not advance is left alone. */
  function Ticked(t: Timer): (r: Timer)
    ensures r.id == t.id && r.name == t.name && r.category == t.category && r.duration == t.duration
  {
    if Advances(t) && t.remaining > 1 then t.(remaining := t.remaining - 1)
    else if Finishes(t) then t.(status := Completed)
    else t
  }

  function TickedAll(ts: seq<Timer>): (r: seq<Timer>)
    ensures SameIds(r, ts)
  {
    seq(|ts|, i requires 0 <= i < |ts| => Ticked(ts[i]))
  }

  /** The history entry a timer's last second produces, if any. */
  function Completion(t: Timer, now: string): seq<HistoryEntry>
  {
    if Finishes(t) then [HistoryEntry(t.name, now)] else []
  }

  /** The history entries one tick appends, in snapshot order. */
  function Completions(ts: seq<Timer>, now: string): seq<HistoryEntry>
  {
    if ts == [] then []
    else Completions(ts[..|ts| - 1], now) + Completion(ts[|ts| - 1], now)
  }

  /** Every entry a tick appends is stamped with the tick's clock reading
      and names a timer that finished; every finishing timer is recorded;
      and a tick in which no timer finishes appends nothing. */
  lemma {:induction false} CompletionsRecordFinishers(ts: seq<Timer>, now: string)
    ensures forall e :: e in Completions(ts, now) ==>
      e.time == now && exists i :: 0 <= i < |ts| && Finishes(ts[i]) && ts[i].name == e.name
    ensures forall i :: 0 <= i < |ts| && Finishes(ts[i]) ==> HistoryEntry(ts[i].name, now) in Completions(ts, now)
    ensures (forall i :: 0 <= i < |ts| ==> !Finishes(ts[i])) ==> Completions(ts, now) == []
  {
    if ts != [] {
      var init := ts[..|ts| - 1];
      var last := ts[|ts| - 1];
      CompletionsRecordFinishers(init, now);
      forall e | e in Completions(ts, now)
        ensures e.time == now && exists i :: 0 <= i < |ts| && Finishes(ts[i]) && ts[i].name == e.name
      {
        if e in Completions(init, now) {
          var i :| 0 <= i < |init| && Finishes(init[i]) && init[i].name == e.name;
          assert ts[i] == init[i];
        } else {
          assert e in Completion(last, now);
          assert Finishes(ts[|ts| - 1]);
        }
      }
      forall i | 0 <= i < |ts| && Finishes(ts[i])
        ensures HistoryEntry(ts[i].name, now) in Completions(ts, now)
      {
        if i < |init| {
          assert init[i] == ts[i];
        }
      }
      if forall i :: 0 <= i < |ts| ==> !Finishes(ts[i]) {
        assert forall i :: 0 <= i < |init| ==> init[i] == ts[i];
      }
    }
  }

  // ---------------------------------------------------------------------
  // The fold agrees with the reference.

  /** The three actions of a timer's last second, folded into a state
      whose list holds that timer's id once. */
  lemma FinishStep(st: State, t: Timer, j: int, now: string)
    requires UniqueIds(st.timers) && 0 <= j < |st.timers| && st.timers[j].id == t.id
    requires Finishes(t)
    ensures ApplyAll(st, TimerTickActions(t, now))
      == State(st.timers[j := t.(status := Completed)], st.history + [HistoryEntry(t.name, now)])
  {
    var t1 := t.(remaining := 0);
    var e := HistoryEntry(t.name, now);
    var t2 := t.(status := Completed);
    assert TimerTickActions(t, now) == [UpdateTimer(t1)] + ([AddHistory(e)] + ([UpdateTimer(t2)] + []));
    var s1 := State(st.timers[j := t1], st.history);
    var s2 := State(st.timers[j := t1], st.history + [e]);
    UpdateStep(st, j, t1);
    UpdateStep(s2, j, t2);
    ApplyAllCons(st, UpdateTimer(t1), [AddHistory(e)] + ([UpdateTimer(t2)] + []));
    ApplyAllCons(s1, AddHistory(e), [UpdateTimer(t2)] + []);
    ApplyAllCons(s2, UpdateTimer(t2), []);
  }

  /** Folding one snapshot timer's actions into a state whose list holds
      that timer's id once rewrites that one position from the snapshot
      timer (whatever the position held) and appends its completion. */
  lemma TimerStep(st: State, t: Timer, j: int, now: string)
    requires UniqueIds(st.timers) && 0 <= j < |st.timers| && st.timers[j].id == t.id
    ensures Advances(t) ==>
      ApplyAll(st, TimerTickActions(t, now)) == State(st.timers[j := Ticked(t)], st.history + Completion(t, now))
    ensures !Advances(t) ==> ApplyAll(st, TimerTickActions(t, now)) == st
  {
    if Finishes(t) {
      FinishStep(st, t, j, now);
    } else if Advances(t) {
      var acts := TimerTickActions(t, now);
      var t1 := t.(remaining := t.remaining - 1);
      assert acts == [UpdateTimer(t1)] + [];
      UpdateStep(st, j, t1);
      ApplyAllCons(st, UpdateTimer(t1), []);
    }
  }

  lemma TickActionsSnoc(ts: seq<Timer>, now: string, k: int)
    requires 0 < k <= |ts|
    ensures TickActions(ts[..k], now) == TickActions(ts[..k - 1], now) + TimerTickActions(ts[k - 1], now)
  {
    assert ts[..k][..k - 1] == ts[..k - 1];
  }

  lemma CompletionsSnoc(ts: seq<Timer>, now: string, k: int)
    requires 0 < k <= |ts|
    ensures Completions(ts[..k], now) == Completions(ts[..k - 1], now) + Completion(ts[k - 1], now)
  {
    assert ts[..k][..k - 1] == ts[..k - 1];
  }

  lemma TickedAllSnoc(ts: seq<Timer>, k: int)
    requires 0 < k <= |ts|
    ensures (TickedAll(ts[..k - 1]) + ts[k - 1..])[k - 1 := Ticked(ts[k - 1])] == TickedAll(ts[..k]) + ts[k..]
  {
    var a := (TickedAll(ts[..k - 1]) + ts[k - 1..])[k - 1 := Ticked(ts[k - 1])];
    var b := TickedAll(ts[..k]) + ts[k..];
    assert |a| == |b|;
    forall i | 0 <= i < |a|
      ensures a[i] == b[i]
    {
      if i < k - 1 {
        assert a[i] == TickedAll(ts[..k - 1])[i] == Ticked(ts[i]);
        assert b[i] == TickedAll(ts[..k])[i] == Ticked(ts[i]);
      } else if i > k - 1 {
        assert a[i] == ts[k - 1..][i - (k - 1)] == ts[i];
        assert b[i] == ts[k..][i - k] == ts[i];
      }
    }
  }

  /** The list halfway through a tick: the first `k` timers ticked, the
      rest as in the snapshot. */
  function Halfway(ts: seq<Timer>, k: int): seq<Timer>
    requires 0 <= k <= |ts|
  {
    TickedAll(ts[..k]) + ts[k..]
  }

  lemma HalfwayIds(ts: seq<Timer>, k: int)
    requires 0 <= k < |ts|
    ensures SameIds(Halfway(ts, k), ts)
    ensures Halfway(ts, k)[k] == ts[k]
  {
    var cur := Halfway(ts, k);
    forall i | 0 <= i < |cur|
      ensures cur[i].id == ts[i].id
    {
      if i < k {
        assert cur[i] == TickedAll(ts[..k])[i];
      } else {
        assert cur[i] == ts[k..][i - k];
      }
    }
    assert cur[k] == ts[k..][0];
  }

  /** The state after the first `k` timers' actions, as the reference says. */
  function HalfwayState(s: State, now: string, k: int): State
    requires 0 <= k <= |s.timers|
  {
    State(Halfway(s.timers, k), s.history + Completions(s.timers[..k], now))
  }

  /** The `k`-th timer's actions move the halfway state one timer on. */
  lemma HalfwayStep(s: State, now: string, k: int)
    requires UniqueIds(s.timers) && 0 <= k < |s.timers|
    ensures ApplyAll(HalfwayState(s, now, k), TimerTickActions(s.timers[k], now)) == HalfwayState(s, now, k + 1)
  {
    var ts := s.timers;
    var t := ts[k];
    var st := HalfwayState(s, now, k);
    HalfwayIds(ts, k);
    SameIdsKeepUnique(st.timers, ts);
    TimerStep(st, t, k, now);
    TickedAllSnoc(ts, k + 1);
    CompletionsSnoc(ts, now, k + 1);
    var want := HalfwayState(s, now, k + 1);
    assert (s.history + Completions(ts[..k], now)) + Completion(t, now) == want.history;
    if !Advances(t) {
      assert Ticked(t) == t && Completion(t, now) == [];
      assert st.timers[k := t] == st.timers;
    }
  }

  lemma HalfwayStart(s: State, now: string)
    ensures ApplyAll(s, TickActions(s.timers[..0], now)) == HalfwayState(s, now, 0)
  {
    var ts := s.timers;
    assert ts[..0] == [] && ts[0..] == ts;
    assert TickedAll([]) == [];
    assert Halfway(ts, 0) == ts;
  }

  /** After the actions of the first `k` snapshot timers, those `k` timers
      hold their reference outcome, the rest are untouched, and the history
      has grown by their completions. */
  lemma {:induction false} TickPrefix(s: State, now: string, k: int)
    requires UniqueIds(s.timers) && 0 <= k <= |s.timers|
    ensures ApplyAll(s, TickActions(s.timers[..k], now)) == HalfwayState(s, now, k)
    decreases k
  {
    var ts := s.timers;
    if k == 0 {
      HalfwayStart(s, now);
    } else {
      TickPrefix(s, now, k - 1);
      var pre := TickActions(ts[..k - 1], now);
      var last := TimerTickActions(ts[k - 1], now);
      TickActionsSnoc(ts, now, k);
      ApplyAllAppend(s, pre, last);
      HalfwayStep(s, now, k - 1);
      calc {
        ApplyAll(s, TickActions(ts[..k], now));
        ApplyAll(s, pre + last);
        ApplyAll(ApplyAll(s, pre), last);
        ApplyAll(HalfwayState(s, now, k - 1), last);
        HalfwayState(s, now, k);
      }
    }
  }

  /** One tick equals the reference: every timer replaced by its
      `Ticked` outcome in place, and the completions appended to history
      in snapshot order. */
  lemma TickMatchesReference(s: State, now: string)
    requires UniqueIds(s.timers)
    ensures Tick(s, now) == State(TickedAll(s.timers), s.history + Completions(s.timers, now))
  {
    TickPrefix(s, now, |s.timers|);
    assert s.timers[..|s.timers|] == s.timers;
    assert s.timers[|s.timers|..] == [];
  }

  /** The tick, timer by timer: a running timer loses one second; at its
      last second it becomes Completed still showing one second; paused,
      completed and zero-remaining timers are unchanged. */
  lemma TickEffect(s: State, now: string, i: int)
    requires UniqueIds(s.timers) && 0 <= i < |s.timers|
    ensures SameIds(Tick(s, now).timers, s.timers)
    ensures Advances(s.timers[i]) && s.timers[i].remaining > 1 ==>
      Tick(s, now).timers[i] == s.timers[i].(remaining := s.timers[i].remaining - 1)
    ensures Finishes(s.timers[i]) ==>
      Tick(s, now).timers[i] == s.timers[i].(status := Completed)
      && Tick(s, now).timers[i].remaining == 1
    ensures !Advances(s.timers[i]) ==> Tick(s, now).timers[i] == s.timers[i]
  {
    TickMatchesReference(s, now);
  }

  /** When exactly one timer of the snapshot is at its last second, the
      tick appends exactly one history entry, carrying that timer's name. */
  lemma {:induction false} SingleCompletion(ts: seq<Timer>, now: string, j: int)
    requires 0 <= j < |ts| && Finishes(ts[j])
    requires forall i :: 0 <= i < |ts| && i != j ==> !Finishes(ts[i])
    ensures Completions(ts, now) == [HistoryEntry(ts[j].name, now)]
  {
    var init := ts[..|ts| - 1];
    if j == |ts| - 1 {
      assert forall i :: 0 <= i < |init| ==> !Finishes(init[i]);
      CompletionsRecordFinishers(init, now);
    } else {
      assert init[j] == ts[j];
      SingleCompletion(init, now, j);
    }
  }

  /** Every tick keeps every timer in range, and ids stay in place. */
  lemma TickKeepsValid(s: State, now: string)
    requires ValidTimers(s.timers)
    ensures ValidTimers(Tick(s, now).timers)
    ensures SameIds(Tick(s, now).timers, s.timers)
  {
    var acts := TickActions(s.timers, now);
    TickActionsShape(s.timers, now);
    assert forall k :: 0 <= k < |acts| ==> acts[k] in acts;
    ApplyAllKeepsValid(s, acts);
    ApplyAllKeepsIds(s, acts);
  }

  // ---------------------------------------------------------------------
  // Many ticks.

  /** A timer that does not advance (paused, completed, or out of time)
      is unchanged by any number of ticks. */
  lemma {:induction false} IdleTimerStays(s: State, nows: seq<string>, i: int)
    requires UniqueIds(s.timers) && 0 <= i < |s.timers| && !Advances(s.timers[i])
    ensures |Ticks(s, nows).timers| == |s.timers|
    ensures Ticks(s, nows).timers[i] == s.timers[i]
    decreases |nows|
  {
    if nows != [] {
      var s1 := Tick(s, nows[0]);
      TickEffect(s, nows[0], i);
      SameIdsKeepUnique(s1.timers, s.timers);
      IdleTimerStays(s1, nows[1..], i);
    }
  }

  /** A running timer with `r` seconds left shows `r - n` after `n < r`
      ticks and is Completed, still showing one second, after `n >= r`
      ticks; once Completed it is never decremented again. */
  lemma {:induction false} Countdown(s: State, nows: seq<string>, i: int)
    requires UniqueIds(s.timers) && 0 <= i < |s.timers| && Advances(s.timers[i])
    ensures |Ticks(s, nows).timers| == |s.timers|
    ensures |nows| < s.timers[i].remaining ==>
      Ticks(s, nows).timers[i] == s.timers[i].(remaining := s.timers[i].remaining - |nows|)
    ensures |nows| >= s.timers[i].remaining ==>
      Ticks(s, nows).timers[i] == s.timers[i].(remaining := 1, status := Completed)
    decreases |nows|
  {
    var t := s.timers[i];
    if nows != [] {
      var s1 := Tick(s, nows[0]);
      TickEffect(s, nows[0], i);
      SameIdsKeepUnique(s1.timers, s.timers);
      if t.remaining > 1 {
        Countdown(s1, nows[1..], i);
      } else {
        IdleTimerStays(s1, nows[1..], i);
      }
    }
  }

  /** Ticks only ever append to the history. */
  lemma {:induction false} TicksExtendHistory(s: State, nows: seq<string>)
    ensures |s.history| <= |Ticks(s, nows).history|
    ensures Ticks(s, nows).history[..|s.history|] == s.history
    decreases |nows|
  {
    if nows != [] {
      var s1 := Tick(s, nows[0]);
      var acts := TickActions(s.timers, nows[0]);
      TickActionsShape(s.timers, nows[0]);
      assert forall k :: 0 <= k < |acts| ==> acts[k] in acts;
      ApplyAllExtendsHistory(s, acts);
      TicksExtendHistory(s1, nows[1..]);
      assert s1.history[..|s.history|] == s.history;
      var h := Ticks(s, nows).history;
      assert h[..|s1.history|][..|s.history|] == h[..|s.history|];
    }
  }
}

=== FILE: timer_model.dfy ===
/** The data of the timer store: timers, completion history, the application
    state that holds both, and the actions the reducer understands. */
module TimerModel {

  /** The three states a timer can be in; the source stores them as strings. */
  datatype Status = Paused | Running | Completed

  /** One countdown timer. `id`, `name` and `category` are opaque strings;
      `duration` and `remaining` are whole seconds. */
  datatype Timer = Timer(
    id: string,
    name: string,
    duration: int,
    remaining: int,
    category: string,
    status: Status)

  /** One completion record: the timer's name and the completion instant
      (an ISO-8601 string produced by the host clock). */
  datatype HistoryEntry = HistoryEntry(name: string, time: string)

  /** The whole application state: timers in insertion order and the
      chronological completion history. */
  datatype State = State(timers: seq<Timer>, history: seq<HistoryEntry>)

  /** The actions dispatched into the reducer. Every UPDATE_TIMER call site
      passes a fully spread timer, so its payload is a whole `Timer`.
      `Unrecognised(tag)` stands for an action whose type string is none of
      the six handled ones (ADD_TIMER, UPDATE_TIMER, RESET_TIMERS,
      SET_TIMERS, ADD_HISTORY, SET_HISTORY); `tag` records that string and
      is never one of those six. */
  datatype Action =
    | AddTimer(timer: Timer)
    | UpdateTimer(timer: Timer)
    | ResetTimers(category: string)
    | SetTimers(timers: seq<Timer>)
    | AddHistory(entry: HistoryEntry)
    | SetHistory(entries: seq<HistoryEntry>)
    | Unrecognised(tag: string)

  /** No two timers share an id (ids come from the creation clock). */
  predicate UniqueIds(ts: seq<Timer>)
  {
    forall i, j :: 0 <= i < j < |ts| ==> ts[i].id != ts[j].id
  }

  /** Two timer sequences carry the same ids at the same positions. */
  predicate SameIds(a: seq<Timer>, b: seq<Timer>)
  {
    |a| == |b| && forall i :: 0 <= i < |a| ==> a[i].id == b[i].id
  }

  /** The intended range of a timer's countdown. */
  predicate ValidTimer(t: Timer)
  {
    0 <= t.remaining <= t.duration
  }

  predicate ValidTimers(ts: seq<Timer>)
  {
    forall i :: 0 <= i < |ts| ==> ValidTimer(ts[i])
  }

  lemma SameIdsKeepUnique(a: seq<Timer>, b: seq<Timer>)
    requires SameIds(a, b) && UniqueIds(b)
    ensures UniqueIds(a)
  {
    forall i, j | 0 <= i < j < |a|
      ensures a[i].id != a[j].id
    {
      assert a[i].id == b[i].id && a[j].id == b[j].id;
    }
  }
}
